=== FILE: README.md ===
# BetaCrew market-data client, modelled in Dafny

The client in `client.js` asks a market-data server for every record of a
trading session, decodes the stream of 17-byte frames the server writes
back, notices sequence numbers that never arrived, asks for those one by
one on a second connection, and writes the assembled array of records to a
file at the first close that finds the missed list empty. The drain loop
empties that list as it writes the requests, not as the answers arrive, so
a request the server never answers leaves a `null` in the file.

The model has three modules:

- `Wire` (`wire.dfy`) covers the byte formats.
  - `Decode` is `handlePacket`:
    - a 4-character symbol and a 1-character side, decoded the way Node's `'ascii'` decoding does it (high bit cleared);
    - three big-endian unsigned 32-bit fields at offsets 5, 9 and 13.
  - `Encode` writes the frame the server sends, and the two round-trip lemmas connect it to `Decode`.
  - `RequestFrame` is the 2-byte payload of `requestPackets`.
- `Reconciler` (`reconciler.dfy`) covers `processData` as functions on values.
  - `Step` is one decoded record: the gap loop, the placement by phase and the new expected sequence.
  - `Frames` is the slicing of a chunk at offsets 0, 17, 34, ...
  - `Apply` and `Process` handle the frames of a chunk in order. The first frame that fails to decode stops the call.
  - Lemmas about these functions cover:
    - the bulk phase (appending);
    - the recovery phase (absolute placement);
    - gaps that the recovery phase records again when the gap loop fires.
- `Client` (`client.dfy`) covers the imperative part.
  - The class `Session` holds the four module-level variables `expectedSequence`, `missedSequences`, `missedState` and `stockData`.
  - `sent` logs every payload written to the socket. `persisted` logs every array handed to the file writer.
  - Its methods are the event handlers: `requestPackets`, `fetchAllPackets`, the drain loop of `fetchMissingPackets`, `processData` with its inner gap loop, and `onConnectionClose`. Each method is proved against the functions of `Reconciler` and `Wire`.
  - `CompleteRun` composes one bulk round and one recovery round. Its contract covers the case where the server answers each recovery request in the order it was written. The array persisted at the last close then has every slot filled. Slot `k` holds the record numbered `k + 1`, taken from the bulk stream or the recovered records. Every record of either list sits in its own slot.

`Buffer.writeUInt8` throws a `RangeError` for a value above 255; it does
not truncate. So `RequestFrame` returns an error for such a value, and the
drain loop stops at that entry, which it has already popped off the list.

JavaScript arrays are modelled as follows:

- Assigning `stockData[i]` past the end grows the array with holes.
- Assigning at a negative index changes no element.
- A hole and an explicit `null` are both `Absent`, since the persisted JSON shows both as `null`.

## Model

| member | source | states |
|---|---|---|
| Wire.AsciiChar | client.js:65-66 | the decoded character is 7-bit; equal to the byte when below 128, the byte minus 128 otherwise |
| Wire.Ascii | client.js:65-66 | `'ascii'` decoding gives one character per byte, and every character is 7-bit; `AsciiOfBytes` shows that 7-bit text is given back unchanged |
| Wire.U32At | client.js:67-69 | `readUInt32BE`: the first byte read is the most significant and the fourth the least; `BigEndianOfU32` shows the whole value is the four bytes in big-endian order |
| Wire.Decode | client.js:64-72 | succeeds exactly when the frame has at least 17 bytes, and the record then has a 4-character symbol and a 1-character side, all 7-bit; a shorter frame fails at the first 4-byte read that passes its end (offset 5, 9 or 13) |
| Wire.U32RoundTrip | client.js:67-69 | reading four big-endian bytes back gives the 32-bit value that was written |
| Wire.BigEndianOfU32 | client.js:67-69 | the value read at an offset, written back big-endian, is exactly the four bytes at that offset |
| Wire.DecodeLayout | client.js:64-72 | for every frame of at least 17 bytes, whatever its text bytes: symbol character `i` is byte `i` with the high bit cleared, the side is byte 4 the same way, and quantity, price and sequence are the big-endian values of bytes 5..9, 9..13 and 13..17 |
| Wire.DecodeEncode | client.js:65-71 | decoding the frame the server writes for a record gives the same five fields back |
| Wire.EncodeDecode | client.js:65-71 | a 17-byte frame whose five text bytes are 7-bit decodes to a record that encodes back to the same frame, so the decoder loses nothing else |
| Wire.RequestFrame | client.js:28-31 | the payload is exactly `[type, sequence]` when both fit in a byte; otherwise the write fails and names the first value out of range |
| Reconciler.Gap | client.js:83-86 | the gap loop visits `lo .. hi - 1` in ascending order: element `i` is `lo + i`, and a number is visited exactly when `lo <= x < hi` |
| Reconciler.Put | client.js:91 | the array assignment: a negative index changes nothing; otherwise the slot holds the value, every other old slot is unchanged, and any slot created before it is a hole |
| Reconciler.Step | client.js:79-96 | one decoded record: `expectedSequence` becomes one past its sequence, the phase is kept, the missed list is only appended to, and the array never shrinks; `StepEffect` states the rest |
| Reconciler.StepEffect | client.js:82-96 | one record: exactly the numbers from the expected one up to the record's own are added to the missed list, in ascending order, and as many placeholders; no other existing slot changes; the bulk phase appends the record after the placeholders; the recovery phase puts it at index `packetSequence - 1`, with holes for any new slots |
| Reconciler.Steps | client.js:76-97 | records handled in order keep the phase, only append to the missed list, and leave `expectedSequence` one past the last record's sequence |
| Reconciler.Frames | client.js:75-77 | every frame sliced from the chunk has between 1 and 17 bytes; `FrameOffsets` states that frame `k` is the chunk from offset `17k`, and `FramesFull` when every frame is full |
| Reconciler.FramesFull | client.js:75-77 | every frame sliced from a chunk is a full 17 bytes exactly when the chunk length is a multiple of 17 |
| Reconciler.FrameOffsets | client.js:75-77 | there are `ceil(n / 17)` frames, and frame `k` is the chunk from offset `17k` up to 17 bytes long |
| Reconciler.Apply | client.js:76-97 | frames are handled in order; the loop completes exactly when every frame is full |
| Reconciler.Process | client.js:74-98 | a chunk is handled without a throw exactly when its length is a multiple of 17 |
| Reconciler.ProcessAt | client.js:76-79 | the frame at the current offset either throws before the state is touched or is reconciled before the rest of the chunk |
| Reconciler.ProcessAppend | client.js:74-98 | a chunk that ends on a frame boundary can be split into two chunks without changing the outcome |
| Reconciler.ProcessEncoded | client.js:74-98 | a chunk of encoded records is exactly one reconciler step per record, and completes |
| Reconciler.ShortTailLeavesState | client.js:67-69 | a short last frame throws at its first out-of-range read, with the state as after the full frames before it |
| Reconciler.BulkStep | client.js:82-96 | in the bulk phase a record whose sequence is not below the expected one keeps the bulk shape: `stockData.length == expectedSequence - 1`, slot `s - 1` is a placeholder exactly when `s` is missed, and otherwise it holds record `s` |
| Reconciler.BulkSteps | client.js:82-96 | a strictly increasing bulk stream keeps the bulk shape |
| Reconciler.BulkAppend | client.js:82-94 | in the bulk phase with one slot per number before the expectation, a record not behind it is appended after one placeholder per skipped number |
| Reconciler.BulkPlaces | client.js:82-96 | a strictly increasing bulk stream keeps every existing slot, puts each of its records in slot `packetSequence - 1`, and fills no new slot with anything else |
| Reconciler.BulkFromStart | client.js:82-96 | from the initial state, a strictly increasing stream starting at 1 leaves the bulk shape, the FETCHED phase, and as many slots as the last sequence number; each record of the stream sits in slot `packetSequence - 1`, and every filled slot holds one of them |
| Reconciler.BulkComplete | client.js:85-93 | in the bulk shape with nothing missed, every slot holds a record numbered as the slot |
| Reconciler.StepExpected | client.js:82-96 | in the bulk phase the expected record is appended and nothing is added to the missed list |
| Reconciler.ContiguousSteps | client.js:82-96 | a stream without gaps appends its records in order and leaves the missed list unchanged |
| Reconciler.RecoveryPlacement | client.js:90-91 | in the recovery phase, a record at or behind the expectation and inside the array overwrites only its own slot |
| Reconciler.RecoveryAbsolute | client.js:90-91 | in the recovery phase two records end in their own slots, whichever arrives first |
| Reconciler.RecoveryAscendingReopens | client.js:82-91 | in the recovery phase the gap loop still runs: records arriving in ascending order with a hole between them add the numbers in between to the missed list again, and as many placeholders past the end of the array |
| Reconciler.RecoveryAnswer | client.js:82-96 | in the recovery phase, a record answering the last pending number fills that slot, which was a placeholder, and leaves the other numbers pending |
| Reconciler.RecoverySteps | client.js:82-96 | answering the pending numbers last first records nothing as missed again and keeps the length, and every slot then holds a record numbered as the slot; `RecoveryRecords` states which record |
| Reconciler.AnswersTail | client.js:90-96 | after one answer in descending order, the remaining answers still each target a placeholder, and none is ahead of the new expectation |
| Reconciler.RecoveryRecords | client.js:90-91 | recovered records answering placeholders in descending order keep every filled slot and put each record in slot `packetSequence - 1` |
| Reconciler.RequestOrderAnswers | client.js:45-47 | the drained requests answered in the order they were written target placeholders in descending order |
| Reconciler.AnswersCover | client.js:82-91 | every placeholder of the bulk shape is the slot of one answer, so once each answer is in its slot every placeholder holds one of them |
| Reconciler.RecoveryInRequestOrder | client.js:82-96 | after the bulk shape, a recovery round answering the drained requests in the order they were written leaves nothing missed and the same length, with each slot holding a record numbered as the slot; every filled slot is kept, each recovered record sits in its own slot, and every placeholder holds one of them |
| Client.Drain | client.js:45-48 | the drain loop as a function: it never writes or leaves more entries than the list had, and leaves nothing when it completes; `DrainSpec` states the rest |
| Client.DrainSpec | client.js:45-48 | the drain loop completes exactly when every missed number fits in a byte, and then writes one `[2, s]` per entry, last entry first, and empties the list; otherwise it stops at the last entry that does not fit, which it has already popped |
| Client.DrainPop | client.js:45-47 | one turn of the drain loop pops the last entry and writes its request, or stops if it does not fit |
| Client.Session.constructor | client.js:10-13 | the initial state: expected sequence 1, nothing missed, FETCHED, no records |
| Client.Session.RequestPackets | client.js:28-32 | one `[type, sequence]` payload is written exactly when both values fit in a byte; otherwise nothing is written |
| Client.Session.FetchAllPackets | client.js:35-40 | the bulk request writes `[1, 0]` |
| Client.Session.FetchMissingPackets | client.js:42-51 | the drain loop writes exactly the requests of `Drain` and leaves the missed list it describes |
| Client.Session.RecordGap | client.js:82-87 | the gap loop appends the gap numbers to the missed list and as many nulls to the array |
| Client.Session.Reconcile | client.js:79-96 | the state after one decoded record is `Step` of the state before |
| Client.Session.ProcessData | client.js:74-98 | the new state and the outcome are those of `Process` on the old state and the chunk |
| Client.Session.OnConnectionClose | client.js:100-109 | with numbers missed, the phase becomes FETCHING and the list is drained into requests; otherwise the phase becomes FETCHED and `stockData` is persisted |
| Client.AfterBulk | client.js:100-108 | after the bulk shape, a close either persists a complete array at once, or drains one request per missed number that a recovery round in request order completes; the persisted array keeps every filled bulk slot, holds each recovered record in its own slot, and fills every placeholder with one of them |
| Client.BulkRound | client.js:35-40 | a fresh session requests everything and, given a strictly increasing bulk chunk, reaches the bulk shape with the single request `[1, 0]` written |
| Client.BulkChunk | client.js:74-98 | the bulk chunk is one reconciler step per record and leaves the bulk shape |
| Client.BulkProcess | client.js:74-98 | handling an encoded bulk stream from the initial state gives the bulk shape with as many slots as the last sequence number |
| Client.CloseAndRecover | client.js:100-108 | after the bulk shape, the close and the recovery round write exactly the bulk request and the recovery requests, and persist exactly one array: the bulk array, or what the recovery round makes of it; it is complete and of the bulk length; afterwards the session is FETCHED with nothing missed and holds that persisted array, and it expects the number after its lowest missed one (the last answer reconciled), or its old expectation when nothing was missed |
| Client.CloseComplete | client.js:105-107 | with nothing missed, the close persists the array unchanged, and that array is complete; the session stays FETCHED with nothing missed, its array and expected number unchanged |
| Client.CloseWithGaps | client.js:102-104 | with numbers missed, the close writes one request per missed number, and the answering recovery round persists exactly the array it reconciled, which is complete; afterwards the session is FETCHED with nothing missed and holds that persisted array, and it expects the number after the lowest missed one, below the end of the bulk stream |
| Client.CloseUnanswered | client.js:100-108 | when the server answers none of the drained requests, the close after the empty round still persists the bulk array, with a placeholder (`null`) in the slot of every missed number, and leaves the session FETCHED with nothing missed |
| Client.RecoveryRound | client.js:100-108 | a recovery chunk that leaves nothing missed sends nothing and appends to the persisted log the array the chunk produces; the new session state is the old one advanced by the recovered records, then set back to FETCHED |
| Client.CompleteRun | client.js:100-108 | the whole run writes `[1, 0]` and then one `[2, s]` per recovered record. It persists an array whose length is the last bulk sequence. Every slot `k` holds a record numbered `k + 1` taken from the bulk or recovered records, and each of those records sits in its own slot |
| Client.RunRecords | client.js:74-108 | the array a whole run persists holds each bulk and each recovered record in slot `packetSequence - 1`, and every filled slot holds one of them |

## Left out

- Socket plumbing (`net.Socket`, `connect`, `end`, event registration, the top-level call; client.js:15, 53-62, 115-119) is left out. Each callback is a synchronous method call, and a connection's order of events is the order of those calls. `OnConnectionClose` runs the connect callback of `fetchMissingPackets` at once, so the drain is folded into the close: a reconnect that fails, which in the source fires `close` again with `missedSequences` still full, is not modelled.
- File persistence (`writeToFile`, `JSON.stringify`, `fs.writeFile`; client.js:17-26) is left out. The model records the array handed over in `persisted`; formatting and write errors are not modelled.
- Logging and `onError` (client.js:111-113) are left out: they change no state.
- The host and port constants (client.js:4-5) are configuration only.
- Thrown exceptions are not propagated to the event loop, so the crash of the process on an uncaught exception is not modelled. Each one is a result instead: `Threw` from `ProcessData`, and `ok == false` from `FetchMissingPackets` and `OnConnectionClose`. The state is left as it is at the throw.
- Node's error objects are reduced to the offset of the failing read or the value that did not fit.
- Holes and explicit `null`s in `stockData` are not distinguished, because the persisted JSON shows both as `null`.
- `Buffer.slice` returns a view that shares memory with the chunk; the model copies it. Nothing in the client writes to a frame, so no behaviour depends on the sharing.
- Reconciler.Step: its own contract states only the expectation, the phase and that the arrays grow. The effect of a step on the arrays is stated by `StepEffect`, so that those facts are not in scope wherever a step appears.
- Client.Drain: its own contract bounds only the sizes. `DrainSpec` states what the loop writes and leaves.

=== FILE: client.dfy ===
/** The client's session: the four module-level variables of the client as
    the fields of one object, the socket writes and the persisted arrays as
    logs, and the event handlers as methods proved against the functions of
    `Reconciler` and `Wire`. */
module Client {
  import opened Wire
  import opened Reconciler

  /** What the drain loop of `fetchMissingPackets` leaves: the request
      payloads written, the list left over, and whether it ran to the end. */
  datatype Drained = Drained(frames: seq<seq<byte>>, left: seq<nat>, completed: bool)

  /** `while (missedSequences.length) requestPackets(2, missedSequences.pop())`:
      entries leave from the end of the list; an entry too large for one
      byte is popped and then makes `writeUInt8` throw, ending the loop. */
  function Drain(missed: seq<nat>): (d: Drained)
    ensures |d.left| + |d.frames| <= |missed|
    ensures d.completed ==> d.left == []
    decreases |missed|
  {
    if missed == [] then Drained([], [], true)
    else
      var rest := missed[..|missed| - 1];
      match RequestFrame(RequestOne, missed[|missed| - 1])
      case Err(_) => Drained([], rest, false)
      case Ok(frame) =>
        var d := Drain(rest);
        Drained([frame] + d.frames, d.left, d.completed)
  }

  /** What the drain loop does with a list: it completes exactly when every
      entry fits in a byte, and then writes one request per entry and
      leaves the list empty; otherwise it stops at the last entry that does
      not fit, which it has already popped, leaving the entries before it.
      The requests carry the entries last first. */
  lemma {:induction false} DrainSpec(missed: seq<nat>, d: Drained)
    requires d == Drain(missed)
    ensures d.completed <==> forall i :: 0 <= i < |missed| ==> missed[i] < 0x100
    ensures d.completed ==> d.left == [] && |d.frames| == |missed|
    ensures !d.completed ==>
              |d.left| + |d.frames| + 1 == |missed| && missed[|d.left|] >= 0x100
    ensures d.left == missed[..|d.left|]
    ensures forall i :: 0 <= i < |d.frames| ==>
              d.frames[i] == [RequestOne, missed[|missed| - 1 - i]]
    decreases |missed|
  {
    if missed != [] {
      var last := |missed| - 1;
      var rest := missed[..last];
      assert forall i :: 0 <= i < |rest| ==> rest[i] == missed[i];
      if missed[last] < 0x100 {
        var r := Drain(rest);
        DrainSpec(rest, r);
        assert d == Drained([[RequestOne, missed[last]]] + r.frames, r.left, r.completed);
        assert r.left == missed[..|r.left|];
      }
    }
  }

  /** One turn of the drain loop. */
  lemma DrainPop(missed: seq<nat>)
    requires missed != []
    ensures var last := missed[|missed| - 1];
      var rest := Drain(missed[..|missed| - 1]);
      Drain(missed) ==
        if last < 0x100 then Drained([[RequestOne, last]] + rest.frames, rest.left, rest.completed)
        else Drained([], missed[..|missed| - 1], false)
  {
  }

  class Session {
    var expectedSequence: nat
    var missedSequences: seq<nat>
    var missedState: Phase
    var stockData: seq<Slot>
    /** Every payload written to the socket, in order. */
    var sent: seq<seq<byte>>
    /** Every array handed to the persistence step, in order. */
    var persisted: seq<seq<Slot>>

    function Snapshot(): SessionState
      reads this
    {
      SessionState(expectedSequence, missedSequences, missedState, stockData)
    }

    constructor ()
      ensures Snapshot() == Initial()
      ensures sent == [] && persisted == []
    {
      expectedSequence := 1;
      missedSequences := [];
      missedState := Fetched;
      stockData := [];
      sent := [];
      persisted := [];
    }

    /** `requestPackets(type, sequence = 0)`: build the payload and write it;
        a value that does not fit in a byte throws before anything is
        written. */
    method RequestPackets(kind: nat, sequence: nat := 0) returns (ok: bool)
      modifies this`sent
      ensures ok <==> kind < 0x100 && sequence < 0x100
      ensures ok ==> sent == old(sent) + [[kind, sequence]]
      ensures !ok ==> sent == old(sent)
    {
      var payload := RequestFrame(kind, sequence);
      ok := payload.Ok?;
      if ok {
        sent := sent + [payload.value];
      }
    }

    /** The connect callback of `fetchAllPackets`: one request for
        everything. */
    method FetchAllPackets()
      modifies this`sent
      ensures sent == old(sent) + [[RequestAll, 0]]
    {
      var _ := RequestPackets(RequestAll);
    }

    /** The connect callback of `fetchMissingPackets`: pop every missed
        sequence number and request it. `ok` is whether the loop ran to the
        end, after which the client ends the connection. */
    method FetchMissingPackets() returns (ok: bool)
      modifies this`sent, this`missedSequences
      ensures var d := Drain(old(missedSequences));
        sent == old(sent) + d.frames && missedSequences == d.left && ok == d.completed
    {
      ghost var written: seq<seq<byte>> := [];
      while |missedSequences| > 0
        invariant sent == old(sent) + written
        invariant var d := Drain(missedSequences);
          Drain(old(missedSequences)) == Drained(written + d.frames, d.left, d.completed)
        decreases |missedSequences|
      {
        DrainPop(missedSequences);
        var sequence := missedSequences[|missedSequences| - 1];
        missedSequences := missedSequences[..|missedSequences| - 1];
        ok := RequestPackets(RequestOne, sequence);
        if !ok {
          return;
        }
        assert written + ([[RequestOne, sequence]] + Drain(missedSequences).frames)
            == (written + [[RequestOne, sequence]]) + Drain(missedSequences).frames;
        written := written + [[RequestOne, sequence]];
      }
      assert written + [] == written;
      ok := true;
    }

    /** The gap loop of `processData`: every number from
        `expectedSequence` up to `packetSequence` is recorded as missed and
        gets a null slot, in ascending order. */
    method RecordGap(packetSequence: nat)
      modifies this`missedSequences, this`stockData
      ensures missedSequences == old(missedSequences) + Gap(expectedSequence, packetSequence)
      ensures stockData == old(stockData) + Placeholders(|Gap(expectedSequence, packetSequence)|)
    {
      var s := expectedSequence;
      while s < packetSequence
        invariant expectedSequence <= s
        invariant s <= packetSequence || s == expectedSequence
        invariant missedSequences == old(missedSequences) + Gap(expectedSequence, s)
        invariant stockData == old(stockData) + Placeholders(s - expectedSequence)
      {
        GapExtend(expectedSequence, s);
        missedSequences := missedSequences + [s];
        stockData := stockData + [Absent];
        s := s + 1;
      }
    }

    /** The body of the `for` loop of `processData` once a packet has been
        decoded: the gap loop, the placement by phase, and the new
        expectation. */
    method Reconcile(rec: Record)
      modifies this`expectedSequence, this`missedSequences, this`stockData
      ensures Snapshot() == Step(old(Snapshot()), rec)
    {
      var packetSequence: nat := rec.packetSequence;
      if packetSequence != expectedSequence {
        RecordGap(packetSequence);
      } else {
        assert Gap(expectedSequence, packetSequence) == [];
      }
      ghost var grown := stockData;
      assert grown == old(stockData) + Placeholders(|Gap(expectedSequence, packetSequence)|);
      if missedState == Fetching {
        var index: int := packetSequence - 1;
        if index >= 0 {
          if index < |stockData| {
            stockData := stockData[index := Filled(rec)];
          } else {
            stockData := stockData + Placeholders(index - |stockData|) + [Filled(rec)];
          }
        }
        assert stockData == Put(grown, index, Filled(rec));
      } else {
        stockData := stockData + [Filled(rec)];
      }
      expectedSequence := packetSequence + 1;
    }

    /** `processData(data)`: slice the chunk at offsets 0, 17, 34, ... and
        reconcile each frame in order; a short frame throws with the frames
        before it already applied. */
    method ProcessData(data: seq<byte>) returns (outcome: Outcome)
      modifies this`expectedSequence, this`missedSequences, this`stockData
      ensures (Snapshot(), outcome) == Process(old(Snapshot()), data)
    {
      var i := 0;
      while i < |data|
        invariant Process(old(Snapshot()), data) == Process(Snapshot(), data[Min(i, |data|)..])
      {
        var end := Min(i + FrameSize, |data|);
        var packet := data[i..end];
        ProcessAt(Snapshot(), data, i);
        match Decode(packet)
        case Err(e) =>
          return Threw(e);
        case Ok(rec) =>
          Reconcile(rec);
        i := i + FrameSize;
      }
      assert data[Min(i, |data|)..] == [];
      outcome := Completed;
    }

    /** `onConnectionClose`: with sequence numbers still missed, switch to
        FETCHING and drain them as requests; otherwise switch to FETCHED and
        persist `stockData`. */
    method OnConnectionClose() returns (ok: bool)
      modifies this`missedState, this`missedSequences, this`sent, this`persisted
      ensures old(missedSequences) != [] ==>
        var d := Drain(old(missedSequences));
        missedState == Fetching && sent == old(sent) + d.frames &&
        missedSequences == d.left && ok == d.completed && persisted == old(persisted)
      ensures old(missedSequences) == [] ==>
        missedState == Fetched && persisted == old(persisted) + [stockData] &&
        sent == old(sent) && missedSequences == [] && ok
    {
      if |missedSequences| > 0 {
        missedState := Fetching;
        ok := FetchMissingPackets();
      } else {
        missedState := Fetched;
        persisted := persisted + [stockData];
        ok := true;
      }
    }
  }

  /** `recovered` answers one request per number in `missed`, each number
      fitting in the request byte, in the order the drain loop writes the
      requests (last entry first). */
  ghost predicate AnswersInOrder(missed: seq<nat>, recovered: seq<Record>)
  {
    |recovered| == |missed| &&
    (forall i :: 0 <= i < |missed| ==> missed[i] < 0x100) &&
    (forall i :: 0 <= i < |missed| ==> recovered[i].packetSequence == missed[|missed| - 1 - i])
  }

  /** The array persisted at the end of a run whose bulk round left `st`:
      the bulk array itself when nothing was missed, otherwise what the
      recovery round makes of it. */
  function Saved(st: SessionState, recovered: seq<Record>): seq<Slot>
  {
    if st.missed == [] then st.data
    else Steps(SessionState(st.expected, [], Fetching, st.data), recovered).data
  }

  /** After a bulk round that kept the bulk shape, the close either
      persists a complete array at once or drains one request per missed
      number, and a recovery round answering those requests in order
      leaves a complete array and nothing missed. Either way the persisted
      array keeps every record the bulk round placed, holds each recovered
      record in its own slot, and fills every placeholder with one of
      them. */
  lemma AfterBulk(st: SessionState, recovered: seq<Record>)
    requires BulkConsistent(st)
    requires AnswersInOrder(st.missed, recovered)
    ensures st.missed == [] ==> Complete(st.data)
    ensures st.missed != [] ==>
      var d := Drain(st.missed);
      d.completed && d.left == [] && |d.frames| == |recovered| &&
      (forall i :: 0 <= i < |recovered| ==> d.frames[i] == [RequestOne, recovered[i].packetSequence])
    ensures st.missed != [] ==>
      var done := Steps(SessionState(st.expected, [], Fetching, st.data), recovered);
      done.missed == [] && |done.data| == |st.data| && Complete(done.data)
    ensures var saved := Saved(st, recovered);
      |saved| == |st.data| && Complete(saved) &&
      KeepsFilled(st.data, saved) && Placed(saved, recovered) &&
      FillsAbsent(st.data, saved, recovered)
  {
    if st.missed == [] {
      BulkComplete(st);
    } else {
      DrainAnswered(st.missed, recovered);
      RecoveryInRequestOrder(st, recovered);
    }
  }

  /** Draining a list of one-byte numbers writes one request per entry,
      last entry first. */
  lemma DrainAnswered(m: seq<nat>, recovered: seq<Record>)
    requires |recovered| == |m|
    requires forall i :: 0 <= i < |m| ==> m[i] < 0x100
    requires forall i :: 0 <= i < |m| ==> recovered[i].packetSequence == m[|m| - 1 - i]
    ensures var d := Drain(m);
      d.completed && d.left == [] && |d.frames| == |recovered| &&
      forall i :: 0 <= i < |recovered| ==> d.frames[i] == [RequestOne, recovered[i].packetSequence]
  {
    DrainSpec(m, Drain(m));
  }

  /** The bulk round: a fresh session requests everything and receives
      the records as one chunk. */
  method BulkRound(bulk: seq<Record>) returns (session: Session)
    requires forall i :: 0 <= i < |bulk| ==> WellFormed(bulk[i])
    requires Ascending(1, bulk)
    ensures fresh(session)
    ensures session.Snapshot() == Steps(Initial(), bulk)
    ensures BulkConsistent(session.Snapshot())
    ensures |session.stockData| == if bulk == [] then 0 else bulk[|bulk| - 1].packetSequence
    ensures session.sent == [[RequestAll, 0]] && session.persisted == []
  {
    session := new Session();
    session.FetchAllPackets();
    BulkChunk(session, bulk);
  }

  /** The server's answer to the bulk request, delivered as one chunk to a
      session still in its initial state. */
  method BulkChunk(session: Session, bulk: seq<Record>)
    requires forall i :: 0 <= i < |bulk| ==> WellFormed(bulk[i])
    requires Ascending(1, bulk)
    requires session.Snapshot() == Initial()
    modifies session`expectedSequence, session`missedSequences, session`stockData
    ensures session.Snapshot() == Steps(Initial(), bulk)
    ensures BulkConsistent(session.Snapshot())
    ensures |session.stockData| == if bulk == [] then 0 else bulk[|bulk| - 1].packetSequence
  {
    var _ := session.ProcessData(EncodeAll(bulk));
    BulkProcess(bulk, session.Snapshot());
  }

  /** A bulk chunk of strictly increasing records from 1 is handled as one
      step per record and leaves the bulk shape. */
  lemma BulkProcess(bulk: seq<Record>, st: SessionState)
    requires forall i :: 0 <= i < |bulk| ==> WellFormed(bulk[i])
    requires Ascending(1, bulk)
    requires st == Process(Initial(), EncodeAll(bulk)).0
    ensures st == Steps(Initial(), bulk)
    ensures BulkConsistent(st)
    ensures |st.data| == if bulk == [] then 0 else bulk[|bulk| - 1].packetSequence
  {
    ProcessEncoded(Initial(), bulk);
    BulkFromStart(bulk);
  }

  /** The requests of a whole run: the bulk request, then one request
      per recovered record, in the order the records answer them. */
  ghost predicate RequestLog(sent: seq<seq<byte>>, recovered: seq<Record>)
  {
    |sent| == 1 + |recovered| && sent[0] == [RequestAll, 0] &&
    forall i :: 0 <= i < |recovered| ==> sent[1 + i] == [RequestOne, recovered[i].packetSequence]
  }

  /** The whole protocol when the server answers every recovery request in
      the order the requests were written: one bulk round, one recovery
      round. The array persisted at the last close has every slot filled
      with the bulk or recovered record numbered as the slot, and every one
      of those records in its own slot. */
  method CompleteRun(bulk: seq<Record>, recovered: seq<Record>)
    returns (requests: seq<seq<byte>>, saved: seq<Slot>)
    requires forall i :: 0 <= i < |bulk| ==> WellFormed(bulk[i])
    requires forall i :: 0 <= i < |recovered| ==> WellFormed(recovered[i])
    requires Ascending(1, bulk)
    requires AnswersInOrder(Steps(Initial(), bulk).missed, recovered)
    ensures RequestLog(requests, recovered)
    ensures |saved| == if bulk == [] then 0 else bulk[|bulk| - 1].packetSequence
    ensures Complete(saved)
    ensures Placed(saved, bulk) && Placed(saved, recovered)
    ensures FilledFrom(saved, 0, bulk + recovered)
  {
    var session := BulkRound(bulk);
    CloseAndRecover(session, recovered);
    requests := session.sent;
    saved := session.persisted[0];
    RunRecords(bulk, recovered);
  }

  /** The array a whole run persists holds every bulk and every recovered
      record in the slot of its own number, and nothing else. */
  lemma RunRecords(bulk: seq<Record>, recovered: seq<Record>)
    requires Ascending(1, bulk)
    requires AnswersInOrder(Steps(Initial(), bulk).missed, recovered)
    ensures var saved := Saved(Steps(Initial(), bulk), recovered);
      Placed(saved, bulk) && Placed(saved, recovered) && FilledFrom(saved, 0, bulk + recovered)
  {
    var st := Steps(Initial(), bulk);
    BulkFromStart(bulk);
    AfterBulk(st, recovered);
    var saved := Saved(st, recovered);
    forall i | 0 <= i < |bulk|
      ensures 1 <= bulk[i].packetSequence <= |saved| &&
              saved[bulk[i].packetSequence - 1] == Filled(bulk[i])
    {
      assert st.data[bulk[i].packetSequence - 1].Filled?;
    }
    forall k | 0 <= k < |saved| && saved[k].Filled?
      ensures saved[k].rec in bulk + recovered
    {
      if st.data[k].Filled? {
        assert saved[k].rec in bulk;
      } else {
        assert saved[k].rec in recovered;
      }
    }
  }

  /** The close after the bulk round, and the recovery round when it
      drained any requests. */
  method CloseAndRecover(session: Session, recovered: seq<Record>)
    requires forall i :: 0 <= i < |recovered| ==> WellFormed(recovered[i])
    requires BulkConsistent(session.Snapshot())
    requires AnswersInOrder(session.missedSequences, recovered)
    requires session.sent == [[RequestAll, 0]] && session.persisted == []
    modifies session
    ensures RequestLog(session.sent, recovered)
    ensures session.persisted == [Saved(old(session.Snapshot()), recovered)]
    ensures |session.persisted[0]| == |old(session.stockData)|
    ensures Complete(session.persisted[0])
    ensures session.missedState == Fetched && session.missedSequences == []
    ensures session.stockData == session.persisted[0]
    ensures session.expectedSequence ==
      if old(session.missedSequences) == [] then old(session.expectedSequence)
      else old(session.missedSequences)[0] + 1
  {
    if session.missedSequences == [] {
      CloseComplete(session);
      assert RequestLog(session.sent, []);
    } else {
      CloseWithGaps(session, recovered);
    }
  }

  /** A bulk round with nothing missed: the close persists at once. */
  method CloseComplete(session: Session)
    requires session.missedSequences == []
    requires BulkConsistent(session.Snapshot())
    modifies session
    ensures session.sent == old(session.sent)
    ensures session.persisted == old(session.persisted) + [old(session.stockData)]
    ensures Complete(old(session.stockData))
    ensures session.missedState == Fetched && session.missedSequences == []
    ensures session.stockData == old(session.stockData)
    ensures session.expectedSequence == old(session.expectedSequence)
  {
    BulkComplete(session.Snapshot());
    var _ := session.OnConnectionClose();
  }

  /** A bulk round with gaps: the close drains one request per missed
      number, and the recovery round that answers them persists. */
  method CloseWithGaps(session: Session, recovered: seq<Record>)
    requires session.missedSequences != []
    requires forall i :: 0 <= i < |recovered| ==> WellFormed(recovered[i])
    requires BulkConsistent(session.Snapshot())
    requires AnswersInOrder(session.missedSequences, recovered)
    requires session.sent == [[RequestAll, 0]] && session.persisted == []
    modifies session
    ensures RequestLog(session.sent, recovered)
    ensures session.persisted == [Saved(old(session.Snapshot()), recovered)]
    ensures |session.persisted[0]| == |old(session.stockData)|
    ensures Complete(session.persisted[0])
    ensures session.missedState == Fetched && session.missedSequences == []
    ensures session.stockData == session.persisted[0]
    ensures session.expectedSequence == old(session.missedSequences)[0] + 1
  {
    var st := session.Snapshot();
    AfterBulk(st, recovered);
    var _ := session.OnConnectionClose();
    LogAfterDrain(Drain(st.missed).frames, recovered);
    assert session.Snapshot() == SessionState(st.expected, [], Fetching, st.data);
    RecoveryRound(session, recovered);
  }

  /** A recovery round the server never answers. The drain empties the
      missed list as it writes the requests, not as the answers arrive,
      so the close after the empty round persists the bulk array with a
      placeholder still in the slot of every missed number. */
  method CloseUnanswered(session: Session)
    requires session.missedSequences != []
    requires forall i :: 0 <= i < |session.missedSequences| ==> session.missedSequences[i] < 0x100
    requires BulkConsistent(session.Snapshot())
    modifies session
    ensures session.persisted == old(session.persisted) + [old(session.stockData)]
    ensures forall i :: 0 <= i < |old(session.missedSequences)| ==>
              session.persisted[|old(session.persisted)|][old(session.missedSequences)[i] - 1] == Absent
    ensures session.missedState == Fetched && session.missedSequences == []
  {
    ghost var st := session.Snapshot();
    DrainSpec(st.missed, Drain(st.missed));
    var _ := session.OnConnectionClose();
    RecoveryRound(session, []);
  }

  lemma LogAfterDrain(frames: seq<seq<byte>>, recovered: seq<Record>)
    requires |frames| == |recovered|
    requires forall i :: 0 <= i < |recovered| ==> frames[i] == [RequestOne, recovered[i].packetSequence]
    ensures RequestLog([[RequestAll, 0]] + frames, recovered)
  {
  }

  /** The recovery round: the server answers on a new connection, the
      answers are reconciled as one chunk, and the close that follows
      persists the array when nothing was recorded as missed again. */
  method RecoveryRound(session: Session, recovered: seq<Record>)
    requires forall i :: 0 <= i < |recovered| ==> WellFormed(recovered[i])
    requires Steps(session.Snapshot(), recovered).missed == []
    modifies session
    ensures session.sent == old(session.sent)
    ensures session.persisted == old(session.persisted) + [Steps(old(session.Snapshot()), recovered).data]
    ensures session.Snapshot() == Steps(old(session.Snapshot()), recovered).(phase := Fetched)
  {
    ProcessEncoded(session.Snapshot(), recovered);
    var _ := session.ProcessData(EncodeAll(recovered));
    var _ := session.OnConnectionClose();
  }

}

=== FILE: reconciler.dfy ===
/** The sequence reconciler of `processData` as functions on values: one
    step per decoded record, the slicing of a delivered chunk into 17-byte
    frames, and the properties of the bulk and recovery phases. */
module Reconciler {
  import opened Wire

  /** `missedState`: FETCHING while missing records are being re-requested,
      FETCHED otherwise (also the initial value). */
  datatype Phase = Fetching | Fetched

  /** One element of `stockData`. An explicit `null` pushed by the gap loop
      and a hole left by assigning past the end are both `Absent`; the
      persisted JSON shows both as null. */
  datatype Slot = Absent | Filled(rec: Record)

  /** The four module-level variables `expectedSequence`,
      `missedSequences`, `missedState` and `stockData`. */
  datatype SessionState = SessionState(
    expected: nat,
    missed: seq<nat>,
    phase: Phase,
    data: seq<Slot>)

  /** How `processData` ends: it returns, or a frame read throws. */
  datatype Outcome = Completed | Threw(error: DecodeError)

  function Initial(): SessionState
  {
    SessionState(1, [], Fetched, [])
  }

  function Max(a: int, b: int): int
  {
    if a < b then b else a
  }

  /** The sequence numbers the gap loop visits: `lo`, `lo + 1`, ..., `hi - 1`. */
  function Gap(lo: nat, hi: nat): (g: seq<nat>)
    ensures |g| == Max(hi - lo, 0)
    ensures forall i :: 0 <= i < |g| ==> g[i] == lo + i
    ensures forall x: nat :: x in g <==> lo <= x < hi
    decreases hi - lo
  {
    if lo < hi then [lo] + Gap(lo + 1, hi) else []
  }

  function Placeholders(n: nat): (p: seq<Slot>)
    ensures |p| == n
    ensures forall i :: 0 <= i < n ==> p[i] == Absent
  {
    seq(n, _ => Absent)
  }

  /** The JavaScript assignment `xs[i] = v`: a negative `i` names a property,
      not an element, so no element changes; an index at or past the end
      grows the array and leaves holes before the new element. */
  function Put(xs: seq<Slot>, i: int, v: Slot): (ys: seq<Slot>)
    ensures i < 0 ==> ys == xs
    ensures 0 <= i ==> |ys| == Max(|xs|, i + 1) && ys[i] == v
    ensures forall j :: 0 <= j < |xs| && j != i ==> ys[j] == xs[j]
    ensures forall j :: |xs| <= j < |ys| && j != i ==> ys[j] == Absent
  {
    if i < 0 then xs
    else if i < |xs| then xs[i := v]
    else xs + Placeholders(i - |xs|) + [v]
  }

  /** One pass of the body of the `for` loop in `processData` for a decoded
      record: the gap loop, the placement, and the new expected sequence. */
  function Step(st: SessionState, rec: Record): (next: SessionState)
    ensures next.expected == rec.packetSequence + 1 && next.phase == st.phase
    ensures |st.missed| <= |next.missed| && next.missed[..|st.missed|] == st.missed
    ensures |st.data| <= |next.data|
  {
    var gap := Gap(st.expected, rec.packetSequence);
    var grown := st.data + Placeholders(|gap|);
    var data :=
      if st.phase == Fetching then Put(grown, rec.packetSequence - 1, Filled(rec))
      else grown + [Filled(rec)];
    SessionState(rec.packetSequence + 1, st.missed + gap, st.phase, data)
  }

  /** What one step does to the state: gap detection records exactly the
      numbers from the expectation up to the record's own, ascending; no
      slot already present changes except the record's own; the bulk phase
      appends one placeholder per skipped number and then the record; the
      recovery phase puts the record at its absolute position. */
  lemma StepEffect(st: SessionState, rec: Record, next: SessionState)
    requires next == Step(st, rec)
    ensures |next.missed| == |st.missed| + Max(rec.packetSequence - st.expected, 0)
    ensures forall i :: |st.missed| <= i < |next.missed| ==>
              next.missed[i] == st.expected + (i - |st.missed|)
    ensures forall j :: 0 <= j < |st.data| && j != rec.packetSequence - 1 ==>
              next.data[j] == st.data[j]
    ensures st.phase == Fetched ==>
              next.data == st.data + Placeholders(|next.missed| - |st.missed|) + [Filled(rec)]
    ensures st.phase == Fetching ==>
              |next.data| == Max(|st.data| + |next.missed| - |st.missed|, rec.packetSequence)
    ensures st.phase == Fetching && rec.packetSequence >= 1 ==>
              next.data[rec.packetSequence - 1] == Filled(rec)
    ensures st.phase == Fetching ==>
              forall j :: |st.data| <= j < |next.data| && j != rec.packetSequence - 1 ==>
                next.data[j] == Absent
  {
  }

  /** The steps for a list of records, in order. */
  function Steps(st: SessionState, rs: seq<Record>): (next: SessionState)
    ensures next.phase == st.phase
    ensures |st.missed| <= |next.missed| && next.missed[..|st.missed|] == st.missed
    ensures rs != [] ==> next.expected == rs[|rs| - 1].packetSequence + 1
    ensures rs == [] ==> next == st
    decreases |rs|
  {
    if rs == [] then st
    else
      var mid := Step(st, rs[0]);
      var next := Steps(mid, rs[1..]);
      assert next.missed[..|st.missed|] == next.missed[..|mid.missed|][..|st.missed|];
      next
  }

  /** The frames `data.slice(i, i + 17)` for i = 0, 17, 34, ... while
      i < |data|: full frames, then a shorter tail when the length is not a
      multiple of 17. */
  function Frames(data: seq<byte>): (fs: seq<seq<byte>>)
    ensures forall k :: 0 <= k < |fs| ==> 0 < |fs[k]| <= FrameSize
    decreases |data|
  {
    if |data| == 0 then []
    else if |data| <= FrameSize then [data]
    else [data[..FrameSize]] + Frames(data[FrameSize..])
  }

  predicate AllFull(fs: seq<seq<byte>>)
  {
    forall k :: 0 <= k < |fs| ==> |fs[k]| >= FrameSize
  }

  /** Every frame is a full 17 bytes exactly when the chunk length is a
      multiple of 17. */
  lemma {:induction false} FramesFull(data: seq<byte>)
    ensures AllFull(Frames(data)) <==> |data| % FrameSize == 0
    decreases |data|
  {
    var fs := Frames(data);
    if |data| == 0 {
    } else if |data| <= FrameSize {
      assert |data| % FrameSize == 0 <==> |data| == FrameSize;
      assert AllFull(fs) <==> |fs[0]| >= FrameSize;
    } else {
      var tail := Frames(data[FrameSize..]);
      FramesFull(data[FrameSize..]);
      assert (|data| - FrameSize) % FrameSize == |data| % FrameSize;
      assert fs == [data[..FrameSize]] + tail;
      assert forall k :: 0 <= k < |tail| ==> tail[k] == fs[k + 1];
      assert AllFull(fs) <==> AllFull(tail);
    }
  }

  function Min(a: int, b: int): int
  {
    if a < b then a else b
  }

  /** Frames handled strictly in order; the first frame that fails to
      decode stops the loop with everything before it already applied. */
  function Apply(st: SessionState, frames: seq<seq<byte>>): (result: (SessionState, Outcome))
    ensures result.1 == Completed <==> AllFull(frames)
    decreases |frames|
  {
    if frames == [] then (st, Completed)
    else
      match Decode(frames[0])
      case Err(e) => (st, Threw(e))
      case Ok(rec) => Apply(Step(st, rec), frames[1..])
  }

  /** `processData(data)`: the new session state, and whether it returned or
      threw. */
  function Process(st: SessionState, data: seq<byte>): (result: (SessionState, Outcome))
    ensures result.1 == Completed <==> |data| % FrameSize == 0
  {
    FramesFull(data);
    Apply(st, Frames(data))
  }

  // ---------------------------------------------------------------------
  // Chunks and frames

  /** One more turn of the gap loop adds `hi` at the end. */
  lemma GapExtend(lo: nat, hi: nat)
    requires lo <= hi
    ensures Gap(lo, hi + 1) == Gap(lo, hi) + [hi]
  {
    var g, h := Gap(lo, hi + 1), Gap(lo, hi) + [hi];
    assert |g| == |h|;
    assert forall i :: 0 <= i < |g| ==> g[i] == h[i];
  }

  /** The first frame of a non-empty chunk, and the chunk after it. */
  lemma FramesUnfold(d: seq<byte>)
    requires |d| > 0
    ensures var n := Min(FrameSize, |d|);
      Frames(d) == [d[..n]] + Frames(d[n..])
  {
    if |d| <= FrameSize {
      assert d[..|d|] == d;
      assert d[|d|..] == [];
    }
  }

  /** The frame at offset `i` of a chunk decides what follows: a frame
      that fails to decode ends the call with the state untouched, and a
      record is reconciled before the rest of the chunk is handled. */
  lemma ProcessAt(st: SessionState, data: seq<byte>, i: nat)
    requires i < |data|
    ensures var end := Min(i + FrameSize, |data|);
      Process(st, data[i..]) ==
        match Decode(data[i..end])
        case Err(e) => (st, Threw(e))
        case Ok(rec) => Process(Step(st, rec), data[end..])
  {
    var end := Min(i + FrameSize, |data|);
    var d := data[i..];
    FramesUnfold(d);
    SliceParts(data, i, end);
    var fs := Frames(d);
    assert fs[0] == data[i..end] && fs[1..] == Frames(data[end..]);
  }

  lemma SliceParts(data: seq<byte>, i: nat, end: nat)
    requires i <= end <= |data|
    ensures data[i..][..end - i] == data[i..end]
    ensures data[i..][end - i..] == data[end..]
  {
  }

  /** `processData` cuts frame `k` at offset `17 * k`, up to 17 bytes long:
      the frames are consecutive and together cover the chunk. */
  lemma {:induction false} FrameOffsets(data: seq<byte>)
    ensures |Frames(data)| == (|data| + FrameSize - 1) / FrameSize
    ensures forall k :: 0 <= k < |Frames(data)| ==>
              FrameSize * k < |data| &&
              Frames(data)[k] == data[FrameSize * k .. Min(FrameSize * k + FrameSize, |data|)]
    decreases |data|
  {
    var fs := Frames(data);
    if |data| == 0 {
    } else if |data| <= FrameSize {
      assert fs == [data];
      assert data[0..Min(FrameSize, |data|)] == data;
    } else {
      var rest := data[FrameSize..];
      FrameOffsets(rest);
      var tail := Frames(rest);
      assert fs == [data[..FrameSize]] + tail;
      forall k | 1 <= k < |fs|
        ensures FrameSize * k < |data| &&
                fs[k] == data[FrameSize * k .. Min(FrameSize * k + FrameSize, |data|)]
      {
        var lo, hi := FrameSize * (k - 1), Min(FrameSize * (k - 1) + FrameSize, |rest|);
        assert fs[k] == tail[k - 1] == rest[lo..hi];
        SliceShift(data, FrameSize, lo, hi);
      }
    }
  }

  lemma SliceShift(data: seq<byte>, n: nat, lo: nat, hi: nat)
    requires n <= |data| && lo <= hi <= |data| - n
    ensures data[n..][lo..hi] == data[n + lo..n + hi]
  {
  }

  lemma {:induction false} FramesAppend(a: seq<byte>, b: seq<byte>)
    requires |a| % FrameSize == 0
    ensures Frames(a + b) == Frames(a) + Frames(b)
    decreases |a|
  {
    if |a| == 0 {
      assert a + b == b;
    } else {
      assert (a + b)[FrameSize..] == a[FrameSize..] + b;
      assert (a + b)[..FrameSize] == a[..FrameSize];
      FramesAppend(a[FrameSize..], b);
      if |a| == FrameSize {
        assert a[FrameSize..] == [];
        assert Frames(a) == [a];
        assert a[..FrameSize] == a;
        if b == [] {
          assert a + b == a;
        }
      }
    }
  }

  lemma HeadTailAppend(fs: seq<seq<byte>>, gs: seq<seq<byte>>)
    requires fs != []
    ensures (fs + gs)[0] == fs[0] && (fs + gs)[1..] == fs[1..] + gs
  {
  }

  lemma {:induction false} ApplyAppend(st: SessionState, fs: seq<seq<byte>>, gs: seq<seq<byte>>)
    requires Apply(st, fs).1 == Completed
    ensures Apply(st, fs + gs) == Apply(Apply(st, fs).0, gs)
    decreases |fs|
  {
    if fs == [] {
      assert fs + gs == gs;
    } else {
      var rec := Decode(fs[0]).value;
      HeadTailAppend(fs, gs);
      assert Apply(st, fs) == Apply(Step(st, rec), fs[1..]);
      assert Apply(st, fs + gs) == Apply(Step(st, rec), fs[1..] + gs);
      ApplyAppend(Step(st, rec), fs[1..], gs);
    }
  }

  /** A chunk that ends on a frame boundary leaves nothing behind: handling
      it and then the next chunk is the same as handling both as one. */
  lemma ProcessAppend(st: SessionState, a: seq<byte>, b: seq<byte>)
    requires |a| % FrameSize == 0
    ensures Process(st, a + b) == Process(Process(st, a).0, b)
  {
    FramesAppend(a, b);
    FramesFull(a);
    ApplyAppend(st, Frames(a), Frames(b));
    assert Process(st, a + b) == Apply(st, Frames(a) + Frames(b));
  }

  /** A chunk of encoded records is one reconciler step per record. */
  lemma {:induction false} ProcessEncoded(st: SessionState, rs: seq<Record>)
    requires forall i :: 0 <= i < |rs| ==> WellFormed(rs[i])
    ensures Process(st, EncodeAll(rs)) == (Steps(st, rs), Completed)
    decreases |rs|
  {
    if rs != [] {
      ProcessAppend(st, Encode(rs[0]), EncodeAll(rs[1..]));
      ProcessOne(st, rs[0]);
      ProcessEncoded(Step(st, rs[0]), rs[1..]);
    }
  }

  lemma ProcessOne(st: SessionState, r: Record)
    requires WellFormed(r)
    ensures Process(st, Encode(r)) == (Step(st, r), Completed)
  {
    var f := Encode(r);
    DecodeEncode(r);
    assert Frames(f) == [f];
    var single: seq<seq<byte>> := [f];
    assert single[1..] == [];
    assert Frames(f) == single;
    assert Apply(st, single) == Apply(Step(st, r), []);
  }

  /** A frame too short to decode throws before the state is touched for
      it: the state is that after the full frames in front of it. */
  lemma {:induction false} ShortTailLeavesState(st: SessionState, rs: seq<Record>, tail: seq<byte>)
    requires forall i :: 0 <= i < |rs| ==> WellFormed(rs[i])
    requires 0 < |tail| < FrameSize
    ensures Process(st, EncodeAll(rs) + tail) == (Steps(st, rs), Threw(Decode(tail).error))
  {
    ProcessAppend(st, EncodeAll(rs), tail);
    ProcessEncoded(st, rs);
    assert Frames(tail) == [tail];
  }

  // ---------------------------------------------------------------------
  // Bulk phase

  /** The strictly increasing sequence numbers of a bulk stream, none below
      `from`. */
  predicate Ascending(from: nat, rs: seq<Record>)
  {
    (forall i :: 0 <= i < |rs| ==> from <= rs[i].packetSequence) &&
    (forall i, j :: 0 <= i < j < |rs| ==> rs[i].packetSequence < rs[j].packetSequence)
  }

  /** The shape the bulk phase keeps: slot `s - 1` holds record `s` or is a
      placeholder, and it is a placeholder exactly when `s` was recorded as
      missed; `missedSequences` is ascending and below `expectedSequence`. */
  ghost predicate BulkConsistent(st: SessionState)
  {
    |st.data| + 1 == st.expected &&
    (forall i :: 0 <= i < |st.missed| ==> 1 <= st.missed[i] < st.expected) &&
    (forall i, j :: 0 <= i < j < |st.missed| ==> st.missed[i] < st.missed[j]) &&
    (forall k :: 0 <= k < |st.data| ==> (st.data[k] == Absent <==> k + 1 in st.missed)) &&
    (forall k :: 0 <= k < |st.data| && st.data[k].Filled? ==>
       st.data[k].rec.packetSequence == k + 1)
  }

  /** Each record of `rs` sits in the slot of its own sequence number. */
  ghost predicate Placed(data: seq<Slot>, rs: seq<Record>)
  {
    forall i :: 0 <= i < |rs| ==>
      1 <= rs[i].packetSequence <= |data| && data[rs[i].packetSequence - 1] == Filled(rs[i])
  }

  /** Every filled slot of `data` from index `lo` on holds one of `rs`. */
  ghost predicate FilledFrom(data: seq<Slot>, lo: nat, rs: seq<Record>)
  {
    forall k :: lo <= k < |data| && data[k].Filled? ==> data[k].rec in rs
  }

  /** `after` keeps every filled slot of `before`. */
  ghost predicate KeepsFilled(before: seq<Slot>, after: seq<Slot>)
  {
    forall k :: 0 <= k < |before| && before[k].Filled? ==> k < |after| && after[k] == before[k]
  }

  /** Every slot absent in `before` is filled in `after` with one of `rs`. */
  ghost predicate FillsAbsent(before: seq<Slot>, after: seq<Slot>, rs: seq<Record>)
  {
    forall k :: 0 <= k < |before| && before[k] == Absent ==>
      k < |after| && after[k].Filled? && after[k].rec in rs
  }

  lemma BulkStep(st: SessionState, rec: Record)
    requires BulkConsistent(st) && st.phase == Fetched
    requires st.expected <= rec.packetSequence
    ensures BulkConsistent(Step(st, rec))
  {
    var next := Step(st, rec);
    StepEffect(st, rec, next);
    var gap := Gap(st.expected, rec.packetSequence);
    assert next.missed == st.missed + gap;
    forall k | 0 <= k < |next.data|
      ensures next.data[k] == Absent <==> k + 1 in next.missed
    {
      if k < |st.data| {
        assert k + 1 !in gap;
      } else if k < |st.data| + |gap| {
        assert k + 1 in gap;
      } else {
        assert k + 1 == rec.packetSequence;
        assert k + 1 !in st.missed;
      }
    }
  }

  /** In the bulk phase, a strictly increasing stream keeps the bulk shape,
      and afterwards `expectedSequence` is one past the last sequence. */
  lemma {:induction false} BulkSteps(st: SessionState, rs: seq<Record>)
    requires BulkConsistent(st) && st.phase == Fetched
    requires Ascending(st.expected, rs)
    ensures BulkConsistent(Steps(st, rs))
    decreases |rs|
  {
    if rs != [] {
      BulkStep(st, rs[0]);
      BulkSteps(Step(st, rs[0]), rs[1..]);
    }
  }

  /** In the bulk phase, a strictly increasing stream keeps the slots that
      exist, puts each of its records in the slot of its own sequence
      number, and fills no new slot with anything else. */
  lemma {:induction false} BulkPlaces(st: SessionState, rs: seq<Record>)
    requires |st.data| + 1 == st.expected && st.phase == Fetched
    requires Ascending(st.expected, rs)
    ensures PlacedAfter(st.data, Steps(st, rs).data, rs)
    decreases |rs|
  {
    if rs != [] {
      var mid := Step(st, rs[0]);
      AscendingTail(st.expected, rs);
      BulkPlaces(mid, rs[1..]);
      var done := Steps(mid, rs[1..]);
      assert Steps(st, rs) == done;
      BulkLink(st, rs, done.data);
    }
  }

  /** `n` extends `a`, holds each record of `rs` in its own slot, and fills
      the slots past `a` with nothing else. */
  ghost predicate PlacedAfter(a: seq<Slot>, n: seq<Slot>, rs: seq<Record>)
  {
    |a| <= |n| && (forall k :: 0 <= k < |a| ==> n[k] == a[k]) &&
    Placed(n, rs) && FilledFrom(n, |a|, rs)
  }

  /** In the bulk phase, with one slot per number before the expectation,
      a record not behind the expectation is appended after one placeholder
      per skipped number, and so lands in the slot of its own number. */
  lemma BulkAppend(st: SessionState, rec: Record)
    requires |st.data| + 1 == st.expected && st.phase == Fetched
    requires st.expected <= rec.packetSequence
    ensures var m := Step(st, rec).data;
      |st.data| < |m| == rec.packetSequence &&
      m == st.data + Placeholders(|m| - |st.data| - 1) + [Filled(rec)]
  {
    StepEffect(st, rec, Step(st, rec));
  }

  lemma AscendingTail(from: nat, rs: seq<Record>)
    requires rs != [] && Ascending(from, rs)
    ensures Ascending(rs[0].packetSequence + 1, rs[1..])
  {
  }

  /** The inductive step of `BulkPlaces`: whatever the rest of the stream
      places after the first record's step, the first record is placed too. */
  lemma BulkLink(st: SessionState, rs: seq<Record>, n: seq<Slot>)
    requires |st.data| + 1 == st.expected && st.phase == Fetched
    requires rs != [] && st.expected <= rs[0].packetSequence
    requires PlacedAfter(Step(st, rs[0]).data, n, rs[1..])
    ensures PlacedAfter(st.data, n, rs)
  {
    BulkAppend(st, rs[0]);
    PlacesLink(st.data, Step(st, rs[0]).data, n, rs);
  }

  /** The same step on the arrays alone: `m` is `a` with placeholders and
      then the first record appended, and `n` extends `m` with the rest of
      the records in place. */
  lemma PlacesLink(a: seq<Slot>, m: seq<Slot>, n: seq<Slot>, rs: seq<Record>)
    requires rs != [] && |a| < |m| == rs[0].packetSequence
    requires m == a + Placeholders(|m| - |a| - 1) + [Filled(rs[0])]
    requires PlacedAfter(m, n, rs[1..])
    ensures PlacedAfter(a, n, rs)
  {
    forall k | 0 <= k < |a|
      ensures n[k] == a[k]
    {
      assert m[k] == a[k];
    }
    forall i | 0 <= i < |rs|
      ensures 1 <= rs[i].packetSequence <= |n| && n[rs[i].packetSequence - 1] == Filled(rs[i])
    {
      if i == 0 {
        assert n[|m| - 1] == m[|m| - 1];
      } else {
        assert rs[i] == rs[1..][i - 1];
      }
    }
    forall k | |a| <= k < |n| && n[k].Filled?
      ensures n[k].rec in rs
    {
      if k < |m| {
        assert n[k] == m[k];
      } else {
        assert n[k].rec in rs[1..];
      }
    }
  }

  /** From the initial state, a strictly increasing bulk stream of sequence
      numbers from 1 yields the bulk shape, with every record of the stream
      in the slot of its own sequence number and nothing else filled. */
  lemma BulkFromStart(rs: seq<Record>)
    requires Ascending(1, rs)
    ensures var st := Steps(Initial(), rs);
      BulkConsistent(st) && st.phase == Fetched &&
      |st.data| == (if rs == [] then 0 else rs[|rs| - 1].packetSequence)
    ensures var st := Steps(Initial(), rs);
      Placed(st.data, rs) && FilledFrom(st.data, 0, rs)
  {
    BulkSteps(Initial(), rs);
    BulkPlaces(Initial(), rs);
  }

  function FilledSlots(rs: seq<Record>): (slots: seq<Slot>)
    ensures |slots| == |rs|
    ensures forall i :: 0 <= i < |rs| ==> slots[i] == Filled(rs[i])
  {
    seq(|rs|, i requires 0 <= i < |rs| => Filled(rs[i]))
  }

  lemma FilledSlotsAppend(data: seq<Slot>, rs: seq<Record>)
    requires rs != []
    ensures data + FilledSlots(rs) == (data + [Filled(rs[0])]) + FilledSlots(rs[1..])
  {
    assert FilledSlots(rs) == [Filled(rs[0])] + FilledSlots(rs[1..]);
  }

  /** A slot array with every slot filled with a record numbered as the
      slot (slot `k` holds number `k + 1`). */
  ghost predicate Complete(data: seq<Slot>)
  {
    forall k :: 0 <= k < |data| ==> data[k].Filled? && data[k].rec.packetSequence == k + 1
  }

  /** With nothing recorded as missed, the bulk shape has every slot
      filled with a record numbered as the slot. */
  lemma BulkComplete(st: SessionState)
    requires BulkConsistent(st) && st.missed == []
    ensures Complete(st.data)
  {
  }

  /** In the bulk phase, the record the client expects is appended and
      nothing is recorded as missed. */
  lemma StepExpected(st: SessionState, rec: Record)
    requires st.phase == Fetched && rec.packetSequence == st.expected
    ensures Step(st, rec) == SessionState(st.expected + 1, st.missed, Fetched, st.data + [Filled(rec)])
  {
    assert Gap(st.expected, rec.packetSequence) == [];
    assert st.missed + [] == st.missed;
    assert st.data + Placeholders(0) == st.data;
  }

  /** A stream with no gaps (sequences e, e + 1, ...) appends its records in
      order and adds nothing to `missedSequences`. */
  lemma {:induction false} ContiguousSteps(st: SessionState, rs: seq<Record>)
    requires st.phase == Fetched
    requires forall i :: 0 <= i < |rs| ==> rs[i].packetSequence == st.expected + i
    ensures Steps(st, rs) ==
      SessionState(st.expected + |rs|, st.missed, Fetched, st.data + FilledSlots(rs))
    decreases |rs|
  {
    if rs == [] {
      assert st.data + FilledSlots(rs) == st.data;
    } else {
      var next := SessionState(st.expected + 1, st.missed, Fetched, st.data + [Filled(rs[0])]);
      StepExpected(st, rs[0]);
      assert Steps(st, rs) == Steps(next, rs[1..]);
      ContiguousSteps(next, rs[1..]);
      FilledSlotsAppend(st.data, rs);
    }
  }

  // ---------------------------------------------------------------------
  // Recovery phase

  /** A recovered record whose number is neither ahead of the expectation
      nor past the end overwrites only its own slot: no gap is recorded and
      the length is unchanged. */
  lemma RecoveryPlacement(st: SessionState, rec: Record)
    requires st.phase == Fetching
    requires 1 <= rec.packetSequence <= |st.data|
    requires rec.packetSequence <= st.expected
    ensures Step(st, rec).data == st.data[rec.packetSequence - 1 := Filled(rec)]
    ensures Step(st, rec).missed == st.missed
  {
    StepEffect(st, rec, Step(st, rec));
  }

  /** Placement in the recovery phase is absolute: two recovered records
      end up in their own slots whichever arrives first. */
  lemma RecoveryAbsolute(st: SessionState, r1: Record, r2: Record)
    requires st.phase == Fetching
    requires 1 <= r1.packetSequence && 1 <= r2.packetSequence
    requires r1.packetSequence != r2.packetSequence
    ensures var next := Steps(st, [r1, r2]);
      r1.packetSequence <= |next.data| && next.data[r1.packetSequence - 1] == Filled(r1) &&
      r2.packetSequence <= |next.data| && next.data[r2.packetSequence - 1] == Filled(r2)
  {
    var mid := Step(st, r1);
    StepEffect(st, r1, mid);
    StepEffect(mid, r2, Step(mid, r2));
    assert Steps(st, [r1, r2]) == Steps(mid, [r2]);
    assert Steps(mid, [r2]) == Step(mid, r2);
  }

  /** The gap loop also runs in the recovery phase: when recovered records
      arrive in ascending order with a hole between them, the numbers in
      between are recorded as missed again and as many placeholders are
      appended past the end of `stockData`. */
  lemma RecoveryAscendingReopens(st: SessionState, r1: Record, r2: Record)
    requires st.phase == Fetching
    requires 1 <= r1.packetSequence < st.expected
    requires r1.packetSequence + 1 < r2.packetSequence <= |st.data|
    ensures var next := Steps(st, [r1, r2]);
      next.missed == st.missed + Gap(r1.packetSequence + 1, r2.packetSequence) &&
      |next.data| == |st.data| + (r2.packetSequence - r1.packetSequence - 1) &&
      (forall j :: |st.data| <= j < |next.data| ==> next.data[j] == Absent)
  {
    var mid := Step(st, r1);
    StepEffect(st, r1, mid);
    StepEffect(mid, r2, Step(mid, r2));
    assert |mid.data| == |st.data| && mid.missed == st.missed;
    assert Steps(st, [r1, r2]) == Steps(mid, [r2]);
    assert Steps(mid, [r2]) == Step(mid, r2);
  }

  /** What recovery has still to fill: the numbers in `pending` are the
      slots still absent, all below the expectation, ascending. */
  ghost predicate RecoveryPending(cur: SessionState, pending: seq<nat>)
  {
    cur.phase == Fetching &&
    (forall i :: 0 <= i < |pending| ==> 1 <= pending[i] <= |cur.data| && pending[i] < cur.expected) &&
    (forall i, j :: 0 <= i < j < |pending| ==> pending[i] < pending[j]) &&
    (forall k :: 0 <= k < |cur.data| ==> (cur.data[k] == Absent <==> k + 1 in pending)) &&
    (forall k :: 0 <= k < |cur.data| && cur.data[k].Filled? ==>
       cur.data[k].rec.packetSequence == k + 1)
  }

  /** One recovered record answering the last pending number fills that
      slot, which was absent, and leaves the rest pending. */
  lemma RecoveryAnswer(cur: SessionState, pending: seq<nat>, rec: Record)
    requires RecoveryPending(cur, pending) && pending != []
    requires rec.packetSequence == pending[|pending| - 1]
    ensures cur.data[rec.packetSequence - 1] == Absent
    ensures Step(cur, rec).data == cur.data[rec.packetSequence - 1 := Filled(rec)]
    ensures Step(cur, rec).missed == cur.missed
    ensures RecoveryPending(Step(cur, rec), pending[..|pending| - 1])
  {
    var last := |pending| - 1;
    var s := pending[last];
    var rest := pending[..last];
    var next := Step(cur, rec);
    RecoveryPlacement(cur, rec);
    forall k | 0 <= k < |next.data|
      ensures next.data[k] == Absent <==> k + 1 in rest
    {
      if k + 1 == s {
        assert k + 1 !in rest;
      } else {
        assert k + 1 in pending <==> k + 1 in rest;
      }
    }
  }

  /** Answering the pending numbers last first records nothing as missed
      again and keeps the length, and every slot then holds a record
      numbered as the slot (`RecoveryRecords` says which). */
  lemma {:induction false} RecoverySteps(cur: SessionState, pending: seq<nat>, rs: seq<Record>)
    requires RecoveryPending(cur, pending)
    requires |rs| == |pending|
    requires forall i :: 0 <= i < |rs| ==> rs[i].packetSequence == pending[|pending| - 1 - i]
    ensures var done := Steps(cur, rs);
      done.missed == cur.missed && |done.data| == |cur.data| && Complete(done.data)
    decreases |rs|
  {
    if rs == [] {
      assert pending == [];
    } else {
      RecoveryAnswer(cur, pending, rs[0]);
      RecoverySteps(Step(cur, rs[0]), pending[..|pending| - 1], rs[1..]);
    }
  }

  /** Recovered records in the recovery phase, each answering a slot that
      is still absent, in strictly descending order of sequence number, the
      first not ahead of the expectation. */
  ghost predicate AnswersDescending(cur: SessionState, rs: seq<Record>)
  {
    cur.phase == Fetching &&
    (forall i :: 0 <= i < |rs| ==>
       1 <= rs[i].packetSequence <= |cur.data| && cur.data[rs[i].packetSequence - 1] == Absent) &&
    (forall i, j :: 0 <= i < j < |rs| ==> rs[j].packetSequence < rs[i].packetSequence) &&
    (rs != [] ==> rs[0].packetSequence <= cur.expected)
  }

  lemma AnswersTail(cur: SessionState, rs: seq<Record>)
    requires AnswersDescending(cur, rs) && rs != []
    ensures Step(cur, rs[0]).data == cur.data[rs[0].packetSequence - 1 := Filled(rs[0])]
    ensures AnswersDescending(Step(cur, rs[0]), rs[1..])
  {
    RecoveryPlacement(cur, rs[0]);
    var next := Step(cur, rs[0]);
    forall i | 0 <= i < |rs| - 1
      ensures next.data[rs[1..][i].packetSequence - 1] == Absent
    {
      assert rs[1..][i] == rs[i + 1];
    }
  }

  /** Such answers keep every slot that was filled and put each record in
      the slot of its own number. This is a second induction over the same
      round as `RecoverySteps`: that one tracks which numbers are still
      pending, this one which record each slot receives. Apart, each
      inductive step reasons about one invariant only. */
  lemma {:induction false} RecoveryRecords(cur: SessionState, rs: seq<Record>)
    requires AnswersDescending(cur, rs)
    ensures var done := Steps(cur, rs);
      KeepsFilled(cur.data, done.data) && Placed(done.data, rs)
    decreases |rs|
  {
    if rs != [] {
      var next := Step(cur, rs[0]);
      AnswersTail(cur, rs);
      RecoveryRecords(next, rs[1..]);
      var done := Steps(next, rs[1..]);
      assert Steps(cur, rs) == done;
      RecoveryLink(cur.data, next.data, done.data, rs);
    }
  }

  /** The inductive step of `RecoveryRecords` on the arrays alone: `m` is
      `c` with the first record put in its absent slot, and `d` is what the
      rest of the records make of `m`. */
  lemma RecoveryLink(c: seq<Slot>, m: seq<Slot>, d: seq<Slot>, rs: seq<Record>)
    requires rs != [] && 1 <= rs[0].packetSequence <= |c|
    requires c[rs[0].packetSequence - 1] == Absent
    requires m == c[rs[0].packetSequence - 1 := Filled(rs[0])]
    requires KeepsFilled(m, d) && Placed(d, rs[1..])
    ensures KeepsFilled(c, d) && Placed(d, rs)
  {
    var k0 := rs[0].packetSequence - 1;
    assert d[k0] == Filled(rs[0]) by {
      assert m[k0].Filled?;
    }
    forall i | 0 <= i < |rs|
      ensures 1 <= rs[i].packetSequence <= |d| && d[rs[i].packetSequence - 1] == Filled(rs[i])
    {
      if i > 0 {
        assert rs[i] == rs[1..][i - 1];
      }
    }
    forall k | 0 <= k < |c| && c[k].Filled?
      ensures k < |d| && d[k] == c[k]
    {
      assert m[k] == c[k];
    }
  }

  /** The drained requests answered in the order they were written are
      such answers, one per placeholder of the bulk shape. */
  lemma RequestOrderAnswers(st: SessionState, rs: seq<Record>)
    requires BulkConsistent(st)
    requires |rs| == |st.missed|
    requires forall i :: 0 <= i < |rs| ==> rs[i].packetSequence == st.missed[|st.missed| - 1 - i]
    ensures AnswersDescending(SessionState(st.expected, [], Fetching, st.data), rs)
  {
    forall i | 0 <= i < |rs|
      ensures st.data[rs[i].packetSequence - 1] == Absent
    {
      assert st.missed[|st.missed| - 1 - i] in st.missed;
    }
  }

  /** Every placeholder of the bulk shape is the slot of one of the
      answers, so once each answer sits in its own slot every placeholder
      holds one of them. */
  lemma AnswersCover(st: SessionState, rs: seq<Record>, done: seq<Slot>)
    requires BulkConsistent(st)
    requires |rs| == |st.missed|
    requires forall i :: 0 <= i < |rs| ==> rs[i].packetSequence == st.missed[|st.missed| - 1 - i]
    requires Placed(done, rs)
    ensures FillsAbsent(st.data, done, rs)
  {
    forall k | 0 <= k < |st.data| && st.data[k] == Absent
      ensures k < |done| && done[k].Filled? && done[k].rec in rs
    {
      var j :| 0 <= j < |st.missed| && st.missed[j] == k + 1;
      var i := |st.missed| - 1 - j;
      assert rs[i].packetSequence == k + 1;
    }
  }

  /** After a bulk phase with gaps, a recovery round whose responses answer
      the drained requests in the order they were sent (reverse list order)
      fills every placeholder: each slot `k` then holds the record with
      sequence `k + 1`, and no number is recorded as missed. */
  lemma RecoveryInRequestOrder(st: SessionState, rs: seq<Record>)
    requires BulkConsistent(st)
    requires |rs| == |st.missed|
    requires forall i :: 0 <= i < |rs| ==> rs[i].packetSequence == st.missed[|st.missed| - 1 - i]
    ensures var done := Steps(SessionState(st.expected, [], Fetching, st.data), rs);
      done.missed == [] && |done.data| == |st.data| && Complete(done.data)
    ensures var done := Steps(SessionState(st.expected, [], Fetching, st.data), rs);
      KeepsFilled(st.data, done.data) && Placed(done.data, rs) &&
      FillsAbsent(st.data, done.data, rs)
  {
    RecoverySteps(SessionState(st.expected, [], Fetching, st.data), st.missed, rs);
    var cur := SessionState(st.expected, [], Fetching, st.data);
    RequestOrderAnswers(st, rs);
    RecoveryRecords(cur, rs);
    AnswersCover(st, rs, Steps(cur, rs).data);
  }
}

=== FILE: wire.dfy ===
/** Wire formats of the market-data client: the 17-byte data frame the
    server streams back to back, and the 2-byte request frame the client
    writes to ask for all records or for one record by sequence number. */
module Wire {

  /** One octet of a Node `Buffer`. */
  type byte = x: int | 0 <= x < 0x100

  /** An unsigned 32-bit integer, the range of `readUInt32BE`. */
  type u32 = x: int | 0 <= x < 0x1_0000_0000

  datatype Result<T, E> = Ok(value: T) | Err(error: E)

  /** Length of one data frame (`packetSize` in `processData`). */
  const FrameSize: nat := 17

  /** The object `handlePacket` builds; the field names are the keys that end
      up in the persisted JSON. */
  datatype Record = Record(
    symbol: string,
    buySellIndicator: string,
    quantity: u32,
    price: u32,
    packetSequence: u32)

  /** The range error a 4-byte read raises when `offset + 4` passes the end
      of the buffer. */
  datatype DecodeError = OutOfRange(offset: nat)

  /** The range error `writeUInt8` raises for a value outside 0..255. */
  datatype WriteError = ValueOutOfRange(value: int)

  /** Node's 'ascii' decoding clears the high bit of a byte and reads the
      rest as a Latin-1 character. */
  function AsciiChar(b: byte): (c: char)
    ensures c as int < 128
    ensures b < 128 ==> c as int == b
    ensures b >= 128 ==> c as int == b - 128
  {
    (b % 128) as char
  }

  function Ascii(bs: seq<byte>): (s: string)
    ensures |s| == |bs| && IsAscii(s)
  {
    seq(|bs|, i requires 0 <= i < |bs| => AsciiChar(bs[i]))
  }

  predicate IsAscii(s: string)
  {
    forall i :: 0 <= i < |s| ==> s[i] as int < 128
  }

  /** The big-endian unsigned 32-bit value of the four bytes at `off`:
      the first byte is the most significant, the last the least. */
  function U32At(b: seq<byte>, off: nat): (v: u32)
    requires off + 4 <= |b|
    ensures v / 0x100_0000 == b[off] && v % 0x100 == b[off + 3]
  {
    ((b[off] as int * 0x100 + b[off + 1]) * 0x100 + b[off + 2]) * 0x100 + b[off + 3]
  }

  /** A record that some 17-byte frame encodes: four symbol characters and
      one side character, all 7-bit. */
  predicate WellFormed(r: Record)
  {
    |r.symbol| == 4 && |r.buySellIndicator| == 1 &&
    IsAscii(r.symbol) && IsAscii(r.buySellIndicator)
  }

  /** `handlePacket`: symbol from bytes 0..4, side from byte 4, then the
      quantity, price and sequence read big-endian at offsets 5, 9 and 13.
      The string reads clamp to the buffer and never fail; the first 4-byte
      read that passes the end of a short frame throws. */
  function Decode(frame: seq<byte>): (r: Result<Record, DecodeError>)
    ensures r.Ok? <==> |frame| >= FrameSize
    ensures r.Ok? ==> WellFormed(r.value)
    ensures r.Err? ==>
      r.error.offset in {5, 9, 13} &&
      |frame| < r.error.offset + 4 &&
      (r.error.offset > 5 ==> r.error.offset <= |frame|)
  {
    if |frame| < 9 then Err(OutOfRange(5))
    else if |frame| < 13 then Err(OutOfRange(9))
    else if |frame| < FrameSize then Err(OutOfRange(13))
    else
      Ok(Record(Ascii(frame[0..4]), Ascii(frame[4..5]),
                U32At(frame, 5), U32At(frame, 9), U32At(frame, 13)))
  }

  /** The four big-endian bytes of `v`. */
  function BigEndian(v: u32): (bs: seq<byte>)
    ensures |bs| == 4
  {
    var q1 := v / 0x100;
    var q2 := q1 / 0x100;
    [q2 / 0x100, q2 % 0x100, q1 % 0x100, v % 0x100]
  }

  function AsciiBytes(s: string): (bs: seq<byte>)
    requires IsAscii(s)
    ensures |bs| == |s|
  {
    seq(|s|, i requires 0 <= i < |s| => s[i] as int)
  }

  /** The frame the server writes for a record: the inverse of `Decode`. */
  function Encode(r: Record): (frame: seq<byte>)
    requires WellFormed(r)
    ensures |frame| == FrameSize
  {
    AsciiBytes(r.symbol) + AsciiBytes(r.buySellIndicator) +
    BigEndian(r.quantity) + BigEndian(r.price) + BigEndian(r.packetSequence)
  }

  /** A stream of frames back to back, as the server sends it. */
  function EncodeAll(rs: seq<Record>): (data: seq<byte>)
    requires forall i :: 0 <= i < |rs| ==> WellFormed(rs[i])
    ensures |data| == FrameSize * |rs|
  {
    if rs == [] then [] else Encode(rs[0]) + EncodeAll(rs[1..])
  }

  lemma U32RoundTrip(v: u32)
    ensures U32At(BigEndian(v), 0) == v
  {
    var q1 := v / 0x100;
    var q2 := q1 / 0x100;
    assert v == q1 * 0x100 + v % 0x100;
    assert q1 == q2 * 0x100 + q1 % 0x100;
    assert q2 == q2 / 0x100 * 0x100 + q2 % 0x100;
  }

  lemma BigEndianOfU32(b: seq<byte>, off: nat)
    requires off + 4 <= |b|
    ensures BigEndian(U32At(b, off)) == b[off..off + 4]
  {
    var hi: int := b[off] as int * 0x100 + b[off + 1];
    var mid: int := hi * 0x100 + b[off + 2];
    var v: int := mid * 0x100 + b[off + 3];
    assert v / 0x100 == mid && v % 0x100 == b[off + 3];
    assert mid / 0x100 == hi && mid % 0x100 == b[off + 2];
    assert hi / 0x100 == b[off] && hi % 0x100 == b[off + 1];
  }

  lemma AsciiOfBytes(s: string)
    requires IsAscii(s)
    ensures Ascii(AsciiBytes(s)) == s
  {
  }

  /** Decoding what the server encoded gives the record back. */
  lemma DecodeEncode(r: Record)
    requires WellFormed(r)
    ensures Decode(Encode(r)) == Ok(r)
  {
    var sym, side := AsciiBytes(r.symbol), AsciiBytes(r.buySellIndicator);
    var q, p, n := BigEndian(r.quantity), BigEndian(r.price), BigEndian(r.packetSequence);
    var f := Encode(r);
    assert f == sym + side + q + p + n;
    assert f[0..4] == sym && f[4..5] == side;
    assert f[5..9] == q && f[9..13] == p && f[13..17] == n;
    AsciiOfBytes(r.symbol);
    AsciiOfBytes(r.buySellIndicator);
    U32RoundTrip(r.quantity);
    U32RoundTrip(r.price);
    U32RoundTrip(r.packetSequence);
    assert U32At(f, 5) == U32At(q, 0);
    assert U32At(f, 9) == U32At(p, 0);
    assert U32At(f, 13) == U32At(n, 0);
  }

  /** The layout of any full frame, whatever its text bytes: each symbol
      and side character is its byte with the high bit cleared, and the
      quantity, price and sequence are the big-endian values of bytes 5..9,
      9..13 and 13..17. */
  lemma DecodeLayout(frame: seq<byte>)
    requires |frame| >= FrameSize
    ensures var d := Decode(frame).value;
      |d.symbol| == 4 && (forall i :: 0 <= i < 4 ==> d.symbol[i] == AsciiChar(frame[i])) &&
      d.buySellIndicator == [AsciiChar(frame[4])] &&
      BigEndian(d.quantity) == frame[5..9] &&
      BigEndian(d.price) == frame[9..13] &&
      BigEndian(d.packetSequence) == frame[13..17]
  {
    BigEndianOfU32(frame, 5);
    BigEndianOfU32(frame, 9);
    BigEndianOfU32(frame, 13);
  }

  /** A full frame whose five text bytes are 7-bit decodes to a record that
      encodes back to the same frame: decoding loses nothing but the high
      bit of the text bytes. */
  lemma EncodeDecode(frame: seq<byte>)
    requires |frame| == FrameSize
    requires forall i :: 0 <= i < 5 ==> frame[i] < 128
    ensures Decode(frame).Ok? && Encode(Decode(frame).value) == frame
  {
    var r := Decode(frame).value;
    BigEndianOfU32(frame, 5);
    BigEndianOfU32(frame, 9);
    BigEndianOfU32(frame, 13);
    assert AsciiBytes(r.symbol) == frame[0..4];
    assert AsciiBytes(r.buySellIndicator) == frame[4..5];
    assert frame == frame[0..4] + frame[4..5] + frame[5..9] + frame[9..13] + frame[13..17];
  }

  /** Request type 1: send every record. */
  const RequestAll: nat := 1
  /** Request type 2: resend the record with the given sequence number. */
  const RequestOne: nat := 2

  /** The 2-byte payload of `requestPackets`: `writeUInt8(type, 0)` then
      `writeUInt8(sequence, 1)`, either of which throws for a value that does
      not fit in a byte. */
  function RequestFrame(kind: nat, sequence: nat): (r: Result<seq<byte>, WriteError>)
    ensures r.Ok? <==> kind < 0x100 && sequence < 0x100
    ensures r.Ok? ==> r.value == [kind, sequence]
    ensures r.Err? ==> r.error.value >= 0x100 &&
                       r.error.value == (if kind < 0x100 then sequence else kind)
  {
    if kind >= 0x100 then Err(ValueOutOfRange(kind))
    else if sequence >= 0x100 then Err(ValueOutOfRange(sequence))
    else Ok([kind, sequence])
  }
}
